=== FILE: README.md ===
# Wordle solver: a verified model

This project models the core of a Wordle solver, written in Rust.

- A **word** is a string together with an index. The index maps each letter to the set of positions where it occurs.
- A **filter** is five colours (gray, yellow, green): the feedback a guess (the *query*) receives against the hidden word (the *secret*).
- `compute_filter` colours a query against a secret, letter by letter:
  - it skips letters absent from the secret;
  - it marks greens where the positions of the two words intersect;
  - it spends the remaining budget of `min(count in query, count in secret) - greens` yellows on the earliest non-green copies.
- For a query, the secret candidates are **partitioned** by the filter each one would produce.
- The **cost** of a query is the size of its largest bucket.
- The **best query** is the first query of the bank with the smallest cost.
- The **solving loop**:
  1. plays the given first guess (an empty guess asks for the best opening and stops);
  2. from the second round on, recomputes the best query;
  3. takes the feedback;
  4. stops on all green;
  5. otherwise replaces the candidates by the bucket of the feedback;
  6. stops with "FOUND" when one candidate is left, or with "Couldn't find a word!" when the feedback has no bucket.
- Feedback comes from the user, or from a known secret in simulation mode.

Modules:

- `Words` (`words.dfy`): `Word` is a subset type whose index is exactly the positions index of its letters. `NewWord` is `Word::new`.
- `Filters` (`filters.dfy`): `Color`, `Filter` (a five-colour sequence), `NewFilter` and `IsGreen`.
- `Feedback` (`feedback.dfy`): `compute_filter` as written. Per letter there is a green step and a yellow step over the sorted positions (`SortedPositions`). The pass over the positions of the query (`Scan`) yields `ComputeFilter`.
- `FeedbackSpec` (`feedback_spec.dfy`): an independent, position-by-position colouring rule, `ExpectedFilter`. It counts hits (positions where the letters agree) and earlier unmatched copies.
- `FeedbackProofs` and `FeedbackProperties`: the theorem that the two colourings agree, and its consequences (green iff equal letters, duplicate-letter counts, yellows on the earliest copies, test vectors).
- `Partitioning` (`partition.dfy`): a generic order-preserving `GroupBy`, instantiated with the filter against a query, plus `filter_secret_candidates`.
- `Selector` (`selector.dfy`): the cost functions and the first-minimum choice of the best query.
- `Solver` (`solver.dfy`): the opening and one round of the solving loop as pure functions. The loop itself is `Run`, which repeats a round function; `Simulate` runs it with the feedback computed against a known secret.
- `Simulation` (`simulation.dfy`): what simulated play guarantees for a secret among the candidates.
- `Termination` (`termination.dfy`): when simulated play is sure to end. This rests on two assumptions about the word-list files, which the program neither states nor checks: the solution list has no repeated word, and every solution word is also in the query list.
- `FeedbackInput` (`input.dfy`): the token check of the feedback prompt.

In the source, `src/main.rs` holds copies of several functions from `src/wordle.rs`. They match apart from visibility and comments, so one model covers both, and the table cites the `src/wordle.rs` lines. The copies are:

- `Word::new` at lines 43-53;
- `Filter::new` at 100-104;
- `compute_filter` at 113-153;
- the partition at 155-172;
- `compute_hashmap_cost` at 174-185;
- `compute_query_cost` at 187-192;
- `get_filter_from_input` at 194-237;
- `compute_best_query` at 239-251.

The commented-out check at lines 284-289 is the first example of `DuplicateLetterExamples`.

## Model

| member | source | states |
|---|---|---|
| Words.NewWord | src/wordle.rs:21-31 | The word keeps its string. A letter is a key of the index exactly when it occurs in the string. Its entry is the set of every position holding it. |
| Words.IndexOf | src/wordle.rs:15-18 | Every word's index is the positions index of its letters: a key exactly for the letters present, with their complete position sets. |
| Words.IndexPrefix | src/wordle.rs:23-26 | Inserting the first n (position, letter) pairs yields keys exactly for the letters among them, each mapped to its positions below n. |
| Filters.NewFilter | src/wordle.rs:86-90 | A fresh filter has five positions, all gray. |
| Filters.IsGreen | src/wordle.rs:92-94 | `is_green`, the comparison with the all-green array, also written inline at src/main.rs:339. `Filters.IsGreenIff` carries its contract: true exactly when every position is green. |
| Filters.IsGreenIff | src/wordle.rs:92-94 | A filter equals the all-green array exactly when every one of its positions is green. |
| SortedPositions.Ascending | src/wordle.rs:127-134 | The sorted vector of a set's indices is strictly increasing and holds exactly the set's members below the bound. |
| SortedPositions.AscendingLength | src/wordle.rs:127-134 | Sorting a set of positions below the bound keeps every element: the vector's length is the set's size. |
| SortedPositions.AscendingPrefix | src/wordle.rs:136-139 | The first k sorted positions are exactly the positions with fewer than k smaller members of the set. |
| SortedPositions.IntersectionSize | src/wordle.rs:124-125 | The green count is at most each position count, and removing the greens leaves the query count minus the green count. So the yellow count never underflows. |
| Feedback.ComputeFilter | src/wordle.rs:103-143 | `compute_filter` as written: from an all-gray filter, one pass over the query's positions, each doing the green step and then the yellow step for its letter. `FeedbackProofs.ComputeFilterIsExpected` carries its contract: the result equals the position-by-position rule. |
| Feedback.MarkLetter | src/wordle.rs:107-139 | One iteration of `compute_filter`'s loop for a letter: skip it when the secret lacks it, otherwise write its greens and then its yellows. `FeedbackProofs.MarkLetterEffect` carries its contract: every position holding the letter gets its final colour, and every other position is unchanged. |
| Feedback.PaintAll | src/wordle.rs:120-121 | Painting a list of positions sets exactly those positions to the colour and leaves every other position as it was. |
| FeedbackProofs.PositionsCount | src/wordle.rs:124-125 | The size of a letter's position set is its number of occurrences in the word. |
| FeedbackProofs.HitsCount | src/wordle.rs:115-119 | The intersection of the two position sets of a letter has as many members as the positions where both words hold that letter. |
| FeedbackProofs.MarkMatchesEffect | src/wordle.rs:113-139 | After one letter's step, a position is green if it is in both index sets. Otherwise it is yellow if it is a query position with fewer earlier non-green copies than the budget. Otherwise it is unchanged. |
| FeedbackProofs.MarkLetterEffect | src/wordle.rs:106-140 | One iteration for letter c gives every position holding c its final colour under the rule, including when c is absent from the secret, and leaves every other position unchanged. So an iteration repeated for a duplicate letter rewrites the same colours. |
| FeedbackProofs.ComputeFilterIsExpected | src/wordle.rs:103-143 | The computed filter equals the independent rule at every position. Green where the letters agree. Otherwise yellow exactly when fewer earlier unmatched copies exist than `min(count in query, count in secret) - hits`. Otherwise gray. |
| FeedbackProofs.ComputeFilterByDistinctLetters | src/wordle.rs:105-141 | The program redoes a repeated letter once per occurrence. Processing each distinct letter once gives the same filter, so the repetition is harmless. |
| FeedbackProperties.GreenIffSameLetter | src/wordle.rs:113-121 | A position is green exactly when the secret has the same letter there. |
| FeedbackProperties.AbsentLetterStaysGray | src/wordle.rs:108-111 | A query letter that the secret does not contain stays gray. |
| FeedbackProperties.MarkedCountIsMin | src/wordle.rs:124-139 | For every letter, the number of non-gray copies in the query is the smaller of its counts in the query and in the secret. |
| FeedbackProperties.YellowsGoEarliest | src/wordle.rs:136-139 | If a later copy of a letter is yellow, every earlier non-green copy of that letter is yellow too. |
| FeedbackProperties.SelfFeedbackIsGreen | src/wordle.rs:92-94 | A five-letter word colours itself all green. |
| FeedbackProperties.DuplicateLetterExamples | src/test.rs:11-13 | oooll against llool gives yellow, gray, green, yellow, green. alaap against pause gives yellow, gray, gray, gray, yellow. bench against itself is all green. |
| Partitioning.Select | src/wordle.rs:212-223 | A bucket holds exactly the candidates with the given key. It is an in-order subsequence of the candidates and no longer than them. How many copies it keeps is `Partitioning.SelectCount`. |
| Partitioning.GroupBy | src/wordle.rs:210-227 | The loop as written: each candidate in turn is appended to the list of its key, and the list is created on first use. Its contract is carried by `Partitioning.GroupBySelects` (each list is the in-order selection of its key) and `Partitioning.GroupByCoverage` (nothing lost or duplicated). |
| Partitioning.GroupBySelects | src/wordle.rs:210-227 | Every entry of the grouping is the in-order selection of its key and is non-empty. Every candidate's key is an entry. |
| Partitioning.GroupByCoverage | src/wordle.rs:210-227 | The bucket sizes of the grouping add up to the number of candidates. |
| Partitioning.SelectCount | src/wordle.rs:212-223 | A bucket keeps every copy of each candidate with its key, as the push at every occurrence does, and holds no candidate with another key. Each candidate appears in the bucket as often as in the candidates when its key matches, and never otherwise. |
| Partitioning.SelectDistinct | src/wordle.rs:212-223 | A bucket taken from candidates without repeats has no repeats. |
| Partitioning.SelectMissing | src/wordle.rs:212-223 | A bucket that leaves out some candidate is shorter than the candidate list. |
| Partitioning.Partition | src/wordle.rs:210-227 | `compute_filters_to_secret_candidates_for_query`: the grouping of the candidates by their filter against the query. `Partitioning.PartitionBuckets` and `Partitioning.PartitionCoverage` carry its contract. |
| Partitioning.PartitionBuckets | src/wordle.rs:210-227 | Each bucket is non-empty and in candidate order. A candidate is in the bucket of f exactly when its filter against the query is f. Every candidate's filter is a key. |
| Partitioning.PartitionCoverage | src/wordle.rs:210-227 | The partition loses and duplicates nothing: its bucket sizes sum to the number of candidates. |
| Partitioning.FilterCandidates | src/wordle.rs:205-208 | For a filter that is a key (the unwrap), the result is that filter's bucket. It is non-empty and in candidate order, and it holds every copy of each candidate producing that filter and no other candidate. |
| Selector.MaxBucketSize | src/wordle.rs:229-240 | The cost is at least every bucket's size and equal to one of them; it is 0 for an empty map. |
| Selector.HashmapCost | src/wordle.rs:229-240 | The loop over the buckets returns the largest bucket size. |
| Selector.ComputeQueryCost | src/wordle.rs:242-247 | `compute_query_cost`: the partition of the candidates by the query, paired with its largest bucket size. `Selector.MaxBucketSize` and `Selector.CostBounds` carry its contract. |
| Selector.CostBounds | src/wordle.rs:242-247 | The cost of a query is at most the number of candidates. It is at least 1 when there are candidates. The buckets times the cost cover all candidates. |
| Selector.BestFrom | src/wordle.rs:193-200 | The scan that starts with no minimum (`u32::MAX`) and replaces it only on a strictly smaller cost ends at the first index of minimal cost. |
| Selector.BestIndex | src/wordle.rs:190-202 | The chosen index has minimal cost, and every earlier query costs strictly more. |
| Selector.BestQuery | src/wordle.rs:190-202 | `compute_best_query` over a non-empty bank returns a five-letter word of the bank. `Selector.BestQueryIsFirstMinimum` shows it is the first word of least cost. |
| Selector.ScanBank | src/wordle.rs:194-200 | The loop of `compute_best_query` over the bank, replacing the chosen word only on a strictly smaller cost. It returns a word of the bank; `Selector.ScanBankFollowsCosts` shows it is the word at the first least-cost index. |
| Selector.ScanBankFollowsCosts | src/wordle.rs:193-200 | The loop over the bank's words returns the word at the index that the first-minimum scan over the costs picks. |
| Selector.BestQueryAtBestIndex | src/wordle.rs:190-202 | The loop over the bank returns the word at the first index of least cost. |
| Selector.BestQueryIsFirstMinimum | src/wordle.rs:190-202 | The best query is a word of the bank. No query of the bank costs less. It is the earliest query of minimal cost. |
| Solver.Open | src/main.rs:298-316 | An empty first guess yields the best query of the bank and stops: a bank word of least cost, the first such in bank order. A five-letter guess starts play with all solutions, count 1 and that guess. Any other length is rejected. |
| Solver.NextQuery | src/main.rs:319-323 | The first round plays the opening guess. Every later round plays the first word of the query bank of least cost for the remaining candidates. Each query has five letters. |
| Solver.Narrow | src/main.rs:338-369 | The feedback step of a round: stop on all green, fail without a bucket, otherwise narrow to the feedback's bucket. `Solver.NarrowOutcome` carries its contract case by case. |
| Solver.Round | src/main.rs:319-369 | One pass of the loop: the round's query (`Solver.NextQuery`), then the feedback step (`Solver.Narrow`). `Solver.RoundStaysRunnable` and the `Simulation` lemmas carry its contract. |
| Solver.NarrowOutcome | src/main.rs:338-369 | All green ends with the query at the current count. Feedback without a bucket is the only way to "Couldn't find a word!". A single candidate ends with it one guess later. Otherwise play continues on the feedback's bucket: in order, at least two, no more than before, count plus one. |
| Solver.RoundStaysRunnable | src/main.rs:319-369 | A round that continues leaves a session the next round can run. |
| Solver.SimulatedFeedback | src/main.rs:329-332 | Simulation mode's feedback: the round's query filtered against the known secret. `Simulation.SimulatedRoundKeepsSecret` carries its contract. |
| Solver.SimulatedStep | src/main.rs:319-369 | One simulated round as a step function: the round with the simulated feedback, or `NoWord` for a session that is not runnable. `Simulation.SimulatedStepKeeps` and `Termination.SimulatedStepShrinks` carry its contract. |
| Solver.Run | src/main.rs:319-370 | The loop: repeat the round while the game continues, for at most `fuel` more rounds. `Simulation.RunKeeps` and `Termination.RunEnds` carry its contract. |
| Solver.Simulate | src/main.rs:319-370 | Simulation mode (`compute_filter` against the known secret at src/main.rs:331): the first round, then `Run`. `Simulation.SimulationFindsOnlySecret` and `Termination.SimulationEnds` carry its contract. |
| Simulation.GreenOnlyForSecret | src/main.rs:329-342 | In simulation, the feedback is all green exactly when the query is the secret. |
| Simulation.NarrowKeepsSecret | src/main.rs:326-369 | With the secret's own filter, a secret among the candidates survives the round. The round finds it, or keeps it in the next candidates, and never fails. |
| Simulation.SimulatedRoundKeepsSecret | src/main.rs:319-369 | One simulated round of the loop keeps a secret that is among the candidates, or reports it found. The round adds at most one guess, and a continuing game can run its next round. |
| Simulation.RunKeeps | src/main.rs:319-370 | Suppose every round from a runnable session holding the secret never fails, reports only the secret and otherwise keeps it, at one more guess. Then the loop, run for any number of rounds, does the same, at one guess per round. |
| Simulation.SimulationFindsOnlySecret | src/main.rs:319-370 | Simulated play never prints "Couldn't find a word!" for a secret among the candidates. Any word it reports found is the secret. The guess count grows by one per round. |
| Termination.CandidateQueryCost | src/wordle.rs:242-247 | Playing one of at least two distinct candidates costs less than the number of candidates. Its all-green bucket holds only itself, and every other bucket leaves it out. |
| Termination.BestQueryShrinks | src/wordle.rs:190-202 | When the candidates are at least two distinct words that all appear in the bank, the best query costs less than the number of candidates. |
| Termination.SimulatedRoundEnds | src/main.rs:319-369 | On distinct candidates within the bank, a simulated round finds the secret, or goes on with at most as many candidates, still distinct and within the bank. From the second round on it goes on with strictly fewer. |
| Termination.RunEnds | src/main.rs:319-370 | Suppose every round of a game still going finds the secret or leaves strictly fewer candidates. Then the loop, given at least one round fewer than the candidates left, ends with the secret found. |
| Termination.SimulatedStepShrinks | src/main.rs:319-369 | Every simulated round after the first finds the secret or leaves strictly fewer candidates. |
| Termination.SimulationEnds | src/main.rs:319-370 | Simulated play against a secret among distinct candidates, all of them queries of the bank, prints "FOUND" with the secret within as many further rounds as there are candidates, less one. |
| FeedbackInput.ParseColor | src/wordle.rs:167-178 | A token is accepted exactly when its lower-case form is "gray", "yellow" or "green", and it gives that colour. |
| FeedbackInput.ParseColors | src/wordle.rs:166-179 | All tokens parse exactly when each one does, and the colours follow the tokens in order. |
| FeedbackInput.ParseFilter | src/wordle.rs:159-185 | A line is accepted exactly when it has five tokens and each names a colour. The filter holds those colours in order. |
| FeedbackInput.ParseColorNames | src/wordle.rs:166-179 | Typing the colour names of any filter gives back that filter. |
| FeedbackInput.ColorNameParses | src/wordle.rs:167-170 | Each colour's name parses to that colour, in lower case and in upper case. |
| FeedbackInput.ParseIgnoresCase | src/wordle.rs:167 | A line and its lower-cased form are accepted or refused alike, with the same filter. |

## Left out

- Reading the word banks from files (`get_word_bank`, `get_query_bank`, `get_solution_bank`) and writing `results.txt` are file I/O. The banks are parameters.
- Argument parsing, its defaults ("aesir", "queries.txt", "solutions.txt") and every printed message are left out. The opening guess and the known secret are parameters, and the printed outcomes become the `Outcome` and `Opening` values.
- The choice between typed and simulated feedback (`arg_known_secret.len() == WORD_LENGTH`) is left to the caller. `Round` takes any feedback, and `SimulatedFeedback` is the simulation's feedback.
- Reading a line from standard input and `split_whitespace` are I/O and string splitting. `FeedbackInput` starts from the tokens, and "ask again" is `None`, so the prompt's retry loop is not modelled.
- The sort of the solution bank by string (src/main.rs:296) is left out. The solutions are taken in whatever order the caller gives, and every property holds for any order.
- The `Display` impls (emoji squares), the `MyErr` type, the unused `env` import and `plot_results.py` play no part in solving.
- `test_compute_best_query` depends on the external word lists and is not modelled.
- `HashMap` iteration order: the partition is a Dafny `map`, which has no order. The cost is a maximum, so order cannot change it.
- Feedback.ComputeFilter: requires a five-letter query. The source loops over the query's length, so it also accepts shorter queries. On a longer query it panics when a position past the fifth would be coloured green or yellow, since the filter has only five slots. The model assumes that every query has five letters. The opening guess is length-checked (src/main.rs:306), but `get_word_bank` reads the query list without checking line lengths. So five-letter bank words are an assumption about the query list file (`WellFormedBank`), which the program neither states nor checks.
- Words.NewWord: keys the index by `char`. The source keys it by `letter as u8` and indexes the query by bytes in `compute_filter`. The two agree on ASCII words. The model assumes that the word-list files and the typed guess are ASCII, which the program neither states nor checks; non-ASCII input is not modelled.
- FeedbackInput.ParseColor: lower-cases ASCII letters only. Rust's `to_lowercase` is Unicode-aware, and the two agree on every token that could spell a colour name in ASCII.
- Selector.HashmapCost: counts with unbounded naturals. The source's `len() as u32` truncates sizes of 2^32 and more, which the word lists never reach. The starting `u32::MAX` of `compute_best_query` is modelled as "no minimum yet" (`None`).
- Termination.SimulationEnds: assumes that the candidates have no repeats (`Distinct`) and that every candidate is a word of the query bank (`WithinBank`). Neither `src/main.rs` nor `src/wordle.rs` ensures either one: they hold only if the word-list files are made that way. No ending is promised for lists without these properties.
- Solver.Simulate: runs at most `fuel` further rounds. The source loops until it finds the word or fails. `Termination.SimulationEnds` shows that enough fuel always reaches the secret when the candidates have no repeats and all lie in the query bank. Without those conditions the source's loop need not end. For example, if the best query leaves every candidate in one bucket, the next round picks the same query again. The model does not cover that case.
- Solver.Simulate: does not require a non-empty bank, because with an empty bank the source still plays the first round. When such a game continues to a second round, the source panics at `word_bank[0]` (src/main.rs:322, 240), while `SimulatedStep` answers `NoWord`. `NoWord` after a first round with an empty bank therefore stands for that panic, not for "Couldn't find a word!". `Simulation.SimulationFindsOnlySecret` and `Termination.SimulationEnds` require a non-empty bank.
- Solver.Round: a second round with an empty query bank would index `word_bank[0]` and panic in the source. The model requires a non-empty bank from the second round on (`Runnable`) for `Round` and for the lemmas about simulation.

=== FILE: feedback.dfy ===
/** `compute_filter` as the program writes it: one pass over the guess's
    positions; for each position's letter, greens from the intersection of
    the two words' position sets, then yellows on the earliest remaining
    positions of that letter, as many as the letter's budget allows. */
module Feedback {
  import opened Numbers
  import opened Words
  import opened Filters
  import opened SortedPositions

  /** Colours the positions `at` with `c`, one array write at a time; every
      position must lie inside the filter, as the program's writes demand. */
  function PaintAll(f: Filter, at: seq<nat>, c: Color): (r: Filter)
    requires forall k | 0 <= k < |at| :: at[k] < WordLength
    ensures forall j | 0 <= j < WordLength :: r[j] == (if j in at then c else f[j])
    decreases |at|
  {
    if |at| == 0 then f
    else PaintAll(f[at[0] := c], at[1..], c)
  }

  /** The greens and yellows of one letter, given its position sets in the
      guess and in the secret. The two `nat` obligations here are the
      program's implicit ones: the yellow budget does not underflow, and
      every yellow index read from the sorted vector is in bounds. */
  function MarkMatches(f: Filter, queryIndices: set<nat>, secretIndices: set<nat>): Filter
    requires forall j | j in queryIndices :: j < WordLength
  {
    var greens := queryIndices * secretIndices;
    IntersectionSize(queryIndices, secretIndices);
    var numYellows: nat := Min(|queryIndices|, |secretIndices|) - |greens|;
    var yellowIndices := Ascending(queryIndices - greens, WordLength);
    AscendingLength(queryIndices - greens, WordLength);
    PaintAll(PaintAll(f, Ascending(greens, WordLength), Green), yellowIndices[..numYellows], Yellow)
  }

  /** The body of the loop for one position whose guess letter is `letter`:
      a letter the secret lacks leaves the filter alone. */
  function MarkLetter(f: Filter, query: Word, secret: Word, letter: char): Filter
    requires |query.letters| == WordLength
    requires letter in query.letters
  {
    if letter !in secret.index then f
    else MarkMatches(f, query.index[letter], secret.index[letter])
  }

  /** The loop over the guess's positions from position `i` on. */
  function Scan(f: Filter, query: Word, secret: Word, i: nat): Filter
    requires |query.letters| == WordLength
    requires i <= WordLength
    decreases WordLength - i
  {
    if i == WordLength then f
    else Scan(MarkLetter(f, query, secret, query.letters[i]), query, secret, i + 1)
  }

  /** `compute_filter(query, secret)`. */
  function ComputeFilter(query: Word, secret: Word): Filter
    requires |query.letters| == WordLength
  {
    Scan(NewFilter(), query, secret, 0)
  }
}

=== FILE: feedback_proofs.dfy ===
/** The feedback engine computes the positional colouring rule, and the
    properties of feedback that follow from it. */
module FeedbackProofs {
  import opened Numbers
  import opened Words
  import opened Filters
  import opened SortedPositions
  import opened FeedbackSpec
  import opened Feedback

  /* ---------- index-set sizes as positional counts ---------- */

  lemma {:induction false} PositionsPrefixCount(w: seq<char>, c: char, n: nat)
    requires n <= |w|
    ensures |Ascending(Positions(w, c), n)| == multiset(w[..n])[c]
  {
    if n > 0 {
      PositionsPrefixCount(w, c, n - 1);
      assert w[..n] == w[..n - 1] + [w[n - 1]];
    }
  }

  /** A letter's position set is as large as its multiplicity. */
  lemma PositionsCount(w: seq<char>, c: char)
    ensures |Positions(w, c)| == multiset(w)[c]
  {
    AscendingLength(Positions(w, c), |w|);
    PositionsPrefixCount(w, c, |w|);
    assert w[..|w|] == w;
  }

  lemma {:induction false} HitsPrefixCount(q: seq<char>, s: seq<char>, c: char, n: nat)
    requires n <= |q|
    ensures |Ascending(Positions(q, c) * Positions(s, c), n)| == Hits(q, s, c, n)
  {
    if n > 0 {
      HitsPrefixCount(q, s, c, n - 1);
    }
  }

  /** The green positions of a letter are counted by `Hits`. */
  lemma HitsCount(q: seq<char>, s: seq<char>, c: char)
    ensures |Positions(q, c) * Positions(s, c)| == Hits(q, s, c, |q|)
  {
    AscendingLength(Positions(q, c) * Positions(s, c), |q|);
    HitsPrefixCount(q, s, c, |q|);
  }

  /** The rank of a candidate yellow position among the sorted candidates
      is the number of earlier non-green positions of its letter. */
  lemma {:induction false} MissesPrefixCount(q: seq<char>, s: seq<char>, c: char, n: nat)
    requires n <= |q|
    ensures |Ascending(Positions(q, c) - Positions(q, c) * Positions(s, c), n)| == Misses(q, s, c, n)
  {
    if n > 0 {
      MissesPrefixCount(q, s, c, n - 1);
    }
  }

  /* ---------- one loop iteration ---------- */

  /** The positions of `c` already carry either gray or their final colour. */
  ghost predicate Settled(f: Filter, q: seq<char>, s: seq<char>, c: char)
    requires |q| == WordLength
  {
    forall j | 0 <= j < WordLength && q[j] == c :: f[j] == Gray || f[j] == ExpectedColor(q, s, j)
  }

  /** At the level of position sets: greens on the intersection, yellows
      on the non-green positions whose rank among them is below the
      budget, everything else untouched. */
  lemma MarkMatchesEffect(f: Filter, queryIndices: set<nat>, secretIndices: set<nat>, j: nat)
    requires forall k | k in queryIndices :: k < WordLength
    requires j < WordLength
    ensures var greens := queryIndices * secretIndices;
            var budget := Min(|queryIndices|, |secretIndices|) - |greens|;
            MarkMatches(f, queryIndices, secretIndices)[j]
              == if j in greens then Green
                 else if j in queryIndices && |Ascending(queryIndices - greens, j)| < budget then Yellow
                 else f[j]
  {
    var greens := queryIndices * secretIndices;
    IntersectionSize(queryIndices, secretIndices);
    var numYellows: nat := Min(|queryIndices|, |secretIndices|) - |greens|;
    var yellowIndices := Ascending(queryIndices - greens, WordLength);
    AscendingLength(queryIndices - greens, WordLength);
    AscendingPrefix(queryIndices - greens, WordLength, numYellows, j);
  }

  /** Processing letter `c` gives every position holding `c` its final
      colour and touches no other position; running it again for a
      repeated letter rewrites the same colours. */
  lemma MarkLetterEffect(f: Filter, query: Word, secret: Word, c: char, j: nat)
    requires |query.letters| == WordLength
    requires c in query.letters
    requires j < WordLength
    requires Settled(f, query.letters, secret.letters, c)
    ensures MarkLetter(f, query, secret, c)[j]
      == if query.letters[j] == c then ExpectedColor(query.letters, secret.letters, j) else f[j]
  {
    var q, s := query.letters, secret.letters;
    IndexOf(query);
    IndexOf(secret);
    PositionsCount(s, c);
    if c !in secret.index {
      assert Positions(s, c) == {};
      assert YellowBudget(q, s, c) <= 0;
    } else {
      var qi := query.index[c];
      var si := secret.index[c];
      MarkMatchesEffect(f, qi, si, j);
      IntersectionSize(qi, si);
      PositionsCount(q, c);
      HitsCount(q, s, c);
      assert Min(|qi|, |si|) - |qi * si| == YellowBudget(q, s, c);
      if q[j] == c && !Hit(q, s, j) {
        MissesPrefixCount(q, s, c, j);
      }
    }
  }

  /** Every position whose letter occurs in `done` is final; every other
      position is still gray. */
  ghost predicate ColouredFor(f: Filter, q: seq<char>, s: seq<char>, done: seq<char>)
    requires |q| == WordLength
  {
    forall j | 0 <= j < WordLength :: f[j] == if q[j] in done then ExpectedColor(q, s, j) else Gray
  }

  lemma MarkLetterStep(f: Filter, query: Word, secret: Word, done: seq<char>, c: char)
    requires |query.letters| == WordLength
    requires c in query.letters
    requires ColouredFor(f, query.letters, secret.letters, done)
    ensures ColouredFor(MarkLetter(f, query, secret, c), query.letters, secret.letters, done + [c])
  {
    forall j | 0 <= j < WordLength
      ensures MarkLetter(f, query, secret, c)[j]
        == if query.letters[j] == c then ExpectedColor(query.letters, secret.letters, j) else f[j]
    {
      MarkLetterEffect(f, query, secret, c, j);
    }
  }

  lemma ColouredForAll(f: Filter, q: seq<char>, s: seq<char>, done: seq<char>)
    requires |q| == WordLength
    requires forall j | 0 <= j < |q| :: q[j] in done
    requires ColouredFor(f, q, s, done)
    ensures f == ExpectedFilter(q, s)
  {
    var e := ExpectedFilter(q, s);
    assert forall j | 0 <= j < |q| :: f[j] == e[j];
  }

  /** The loop over positions ends with every position final. */
  lemma {:induction false} ScanColours(f: Filter, query: Word, secret: Word, i: nat)
    requires |query.letters| == WordLength
    requires i <= WordLength
    requires ColouredFor(f, query.letters, secret.letters, query.letters[..i])
    ensures Scan(f, query, secret, i) == ExpectedFilter(query.letters, secret.letters)
    decreases WordLength - i
  {
    var q := query.letters;
    if i == WordLength {
      assert q[..i] == q;
      ColouredForAll(f, q, secret.letters, q[..i]);
    } else {
      var g := MarkLetter(f, query, secret, q[i]);
      assert Scan(f, query, secret, i) == Scan(g, query, secret, i + 1);
      MarkLetterStep(f, query, secret, q[..i], q[i]);
      assert q[..i] + [q[i]] == q[..i + 1];
      ScanColours(g, query, secret, i + 1);
    }
  }

  /** `compute_filter` follows the colouring rule at every position: green
      on a match; otherwise yellow exactly when fewer earlier unmatched
      occurrences of the letter exist than its yellow budget. */
  lemma ComputeFilterIsExpected(query: Word, secret: Word)
    requires |query.letters| == WordLength
    ensures ComputeFilter(query, secret) == ExpectedFilter(query.letters, secret.letters)
  {
    assert query.letters[..0] == [];
    ScanColours(NewFilter(), query, secret, 0);
  }

  /* ---------- one pass per distinct letter ---------- */

  /** The guess's letters, each once, in order of first occurrence. */
  function DistinctLetters(s: seq<char>): (r: seq<char>)
    ensures forall c :: c in r <==> c in s
    ensures forall a, b | 0 <= a < b < |r| :: r[a] != r[b]
  {
    if |s| == 0 then []
    else
      var r := DistinctLetters(s[..|s| - 1]);
      assert s == s[..|s| - 1] + [s[|s| - 1]];
      if s[|s| - 1] in r then r else r + [s[|s| - 1]]
  }

  /** The loop body run once for each letter of `letters`, in order. */
  function ScanLetters(f: Filter, query: Word, secret: Word, letters: seq<char>): Filter
    requires |query.letters| == WordLength
    requires forall c | c in letters :: c in query.letters
    decreases |letters|
  {
    if |letters| == 0 then f
    else ScanLetters(MarkLetter(f, query, secret, letters[0]), query, secret, letters[1..])
  }

  lemma {:induction false} ScanLettersColours(f: Filter, query: Word, secret: Word, done: seq<char>, letters: seq<char>)
    requires |query.letters| == WordLength
    requires forall c | c in letters :: c in query.letters
    requires forall c | c in query.letters :: c in done || c in letters
    requires ColouredFor(f, query.letters, secret.letters, done)
    ensures ScanLetters(f, query, secret, letters) == ExpectedFilter(query.letters, secret.letters)
    decreases |letters|
  {
    if |letters| == 0 {
    } else {
      MarkLetterStep(f, query, secret, done, letters[0]);
      ScanLettersColours(MarkLetter(f, query, secret, letters[0]), query, secret, done + [letters[0]], letters[1..]);
    }
  }

  /** Processing each distinct letter once gives the same filter as the
      program's pass over positions, which handles a repeated letter once
      per occurrence. */
  lemma ComputeFilterByDistinctLetters(query: Word, secret: Word)
    requires |query.letters| == WordLength
    ensures ScanLetters(NewFilter(), query, secret, DistinctLetters(query.letters))
      == ComputeFilter(query, secret)
  {
    ScanLettersColours(NewFilter(), query, secret, [], DistinctLetters(query.letters));
    ComputeFilterIsExpected(query, secret);
  }
}

=== FILE: feedback_properties.dfy ===
/** Properties of `compute_filter` that follow from the colouring rule. */
module FeedbackProperties {
  import opened Numbers
  import opened Words
  import opened Filters
  import opened SortedPositions
  import opened FeedbackSpec
  import opened Feedback
  import opened FeedbackProofs

  /** A position is green exactly when guess and secret share its letter. */
  lemma GreenIffSameLetter(query: Word, secret: Word)
    requires |query.letters| == WordLength
    ensures forall i | 0 <= i < WordLength ::
      (ComputeFilter(query, secret)[i] == Green <==>
         i < |secret.letters| && query.letters[i] == secret.letters[i])
  {
    ComputeFilterIsExpected(query, secret);
  }

  /** A guess letter the secret does not contain stays gray. */
  lemma AbsentLetterStaysGray(query: Word, secret: Word)
    requires |query.letters| == WordLength
    ensures forall i | 0 <= i < WordLength && query.letters[i] !in secret.letters ::
      ComputeFilter(query, secret)[i] == Gray
  {
    ComputeFilterIsExpected(query, secret);
    forall i | 0 <= i < WordLength && query.letters[i] !in secret.letters
      ensures YellowBudget(query.letters, secret.letters, query.letters[i]) <= 0
    {
      assert multiset(secret.letters)[query.letters[i]] == 0;
    }
  }

  /** The number of positions below `n` holding `c` that are not gray. */
  function Marked(f: seq<Color>, q: seq<char>, c: char, n: nat): nat
    requires n <= |q| && |q| == |f|
  {
    if n == 0 then 0
    else Marked(f, q, c, n - 1) + (if q[n - 1] == c && f[n - 1] != Gray then 1 else 0)
  }

  lemma {:induction false} HitsPlusMisses(q: seq<char>, s: seq<char>, c: char, n: nat)
    requires n <= |q|
    ensures Hits(q, s, c, n) + Misses(q, s, c, n) == multiset(q[..n])[c]
  {
    if n > 0 {
      HitsPlusMisses(q, s, c, n - 1);
      assert q[..n] == q[..n - 1] + [q[n - 1]];
    }
  }

  lemma {:induction false} MarkedUpTo(q: seq<char>, s: seq<char>, c: char, n: nat, budget: nat)
    requires n <= |q|
    requires budget as int == YellowBudget(q, s, c)
    ensures Marked(ExpectedFilter(q, s), q, c, n) == Hits(q, s, c, n) + Min(Misses(q, s, c, n), budget)
  {
    if n > 0 {
      MarkedUpTo(q, s, c, n - 1, budget);
    }
  }

  /** Duplicate letters: for every letter, the guess shows exactly as many
      non-gray copies as the smaller of its counts in guess and secret. */
  lemma MarkedCountIsMin(query: Word, secret: Word, c: char)
    requires |query.letters| == WordLength
    ensures Marked(ComputeFilter(query, secret), query.letters, c, WordLength)
      == Min(multiset(query.letters)[c], multiset(secret.letters)[c])
  {
    ComputeFilterIsExpected(query, secret);
    ExpectedMarkedCount(query.letters, secret.letters, c);
  }

  lemma ExpectedMarkedCount(q: seq<char>, s: seq<char>, c: char)
    ensures Marked(ExpectedFilter(q, s), q, c, |q|) == Min(multiset(q)[c], multiset(s)[c])
  {
    HitsCount(q, s, c);
    PositionsCount(q, c);
    PositionsCount(s, c);
    IntersectionSize(Positions(q, c), Positions(s, c));
    HitsPlusMisses(q, s, c, |q|);
    assert q[..|q|] == q;
    var budget: nat := Min(multiset(q)[c], multiset(s)[c]) - Hits(q, s, c, |q|);
    MarkedUpTo(q, s, c, |q|, budget);
  }

  lemma {:induction false} MissesGrow(q: seq<char>, s: seq<char>, i: nat, j: nat)
    requires i < j <= |q|
    requires !Hit(q, s, i)
    ensures Misses(q, s, q[i], i) < Misses(q, s, q[i], j)
  {
    if j > i + 1 {
      MissesGrow(q, s, i, j - 1);
    }
  }

  /** Yellows for a repeated letter go to its earliest non-green copies: a
      non-green copy before a yellow one is itself yellow, so a gray copy
      is followed only by gray or green copies. */
  lemma YellowsGoEarliest(query: Word, secret: Word, i: nat, j: nat)
    requires |query.letters| == WordLength
    requires i < j < WordLength
    requires query.letters[i] == query.letters[j]
    requires ComputeFilter(query, secret)[i] != Green
    requires ComputeFilter(query, secret)[j] == Yellow
    ensures ComputeFilter(query, secret)[i] == Yellow
  {
    ComputeFilterIsExpected(query, secret);
    MissesGrow(query.letters, secret.letters, i, j);
  }

  /** Guessing the secret itself turns every position green. */
  lemma SelfFeedbackIsGreen(w: Word)
    requires |w.letters| == WordLength
    ensures IsGreen(ComputeFilter(w, w))
  {
    GreenIffSameLetter(w, w);
    IsGreenIff(ComputeFilter(w, w));
  }

  /** The repeated-letter examples the program's tests and comments
      spell out. */
  lemma DuplicateLetterExamples()
    ensures ComputeFilter(NewWord("oooll"), NewWord("llool")) == [Yellow, Gray, Green, Yellow, Green]
    ensures ComputeFilter(NewWord("alaap"), NewWord("pause")) == [Yellow, Gray, Gray, Gray, Yellow]
    ensures ComputeFilter(NewWord("bench"), NewWord("bench")) == [Green, Green, Green, Green, Green]
  {
    var oooll, llool := NewWord("oooll"), NewWord("llool");
    var alaap, pause := NewWord("alaap"), NewWord("pause");
    ComputeFilterIsExpected(oooll, llool);
    ComputeFilterIsExpected(alaap, pause);
    ExpectedExamples();
    SelfFeedbackIsGreen(NewWord("bench"));
  }

  lemma ExpectedExamples()
    ensures ExpectedFilter("oooll", "llool") == [Yellow, Gray, Green, Yellow, Green]
    ensures ExpectedFilter("alaap", "pause") == [Yellow, Gray, Gray, Gray, Yellow]
  {
    RepeatedOExample();
    RepeatedAExample();
  }

  lemma RepeatedOExample()
    ensures ExpectedFilter("oooll", "llool") == [Yellow, Gray, Green, Yellow, Green]
  {
    var q, s := "oooll", "llool";
    assert multiset(q)['o'] == 3 && multiset(s)['o'] == 2;
    assert multiset(q)['l'] == 2 && multiset(s)['l'] == 3;
    assert Hits(q, s, 'o', 5) == 1 && Hits(q, s, 'l', 5) == 1;
    assert Misses(q, s, 'o', 0) == 0 && Misses(q, s, 'o', 1) == 1;
    assert Misses(q, s, 'l', 3) == 0;
    assert ExpectedColor(q, s, 0) == Yellow;
    assert ExpectedColor(q, s, 1) == Gray;
    assert ExpectedColor(q, s, 2) == Green;
    assert ExpectedColor(q, s, 3) == Yellow;
    assert ExpectedColor(q, s, 4) == Green;
  }

  lemma RepeatedAExample()
    ensures ExpectedFilter("alaap", "pause") == [Yellow, Gray, Gray, Gray, Yellow]
  {
    var q, s := "alaap", "pause";
    assert multiset(q)['a'] == 3 && multiset(s)['a'] == 1;
    assert multiset(q)['p'] == 1 && multiset(s)['p'] == 1;
    assert multiset(s)['l'] == 0;
    assert Hits(q, s, 'a', 5) == 0 && Hits(q, s, 'p', 5) == 0;
    assert Misses(q, s, 'a', 0) == 0 && Misses(q, s, 'a', 2) == 1 && Misses(q, s, 'a', 3) == 2;
    assert Misses(q, s, 'p', 4) == 0;
    assert ExpectedColor(q, s, 0) == Yellow;
    assert ExpectedColor(q, s, 1) == Gray;
    assert ExpectedColor(q, s, 2) == Gray;
    assert ExpectedColor(q, s, 3) == Gray;
    assert ExpectedColor(q, s, 4) == Yellow;
  }
}

=== FILE: feedback_spec.dfy ===
/** A position-by-position statement of the puzzle's colouring rule, written
    without index maps or sorting, against which the feedback engine is
    proved. For a guess `q` and a secret `s`:
    - position i is green when the secret holds the same letter there;
    - each letter has a yellow budget: the smaller of its counts in guess
      and secret, less its greens;
    - a non-green position is yellow when fewer than budget-many earlier
      non-green positions hold the same letter, and gray otherwise. */
module FeedbackSpec {
  import opened Numbers
  import opened Filters

  /** Position i of the guess is matched by the secret. */
  predicate Hit(q: seq<char>, s: seq<char>, i: nat)
    requires i < |q|
  {
    i < |s| && q[i] == s[i]
  }

  /** The number of positions below n that hold `c` and are hits. */
  function Hits(q: seq<char>, s: seq<char>, c: char, n: nat): nat
    requires n <= |q|
  {
    if n == 0 then 0
    else Hits(q, s, c, n - 1) + (if q[n - 1] == c && Hit(q, s, n - 1) then 1 else 0)
  }

  /** The number of positions below n that hold `c` and are not hits. */
  function Misses(q: seq<char>, s: seq<char>, c: char, n: nat): nat
    requires n <= |q|
  {
    if n == 0 then 0
    else Misses(q, s, c, n - 1) + (if q[n - 1] == c && !Hit(q, s, n - 1) then 1 else 0)
  }

  /** How many non-hit occurrences of `c` in the guess the secret still
      accounts for. */
  function YellowBudget(q: seq<char>, s: seq<char>, c: char): int
  {
    Min(multiset(q)[c], multiset(s)[c]) - Hits(q, s, c, |q|)
  }

  function ExpectedColor(q: seq<char>, s: seq<char>, i: nat): Color
    requires i < |q|
  {
    if Hit(q, s, i) then Green
    else if Misses(q, s, q[i], i) < YellowBudget(q, s, q[i]) then Yellow
    else Gray
  }

  function ExpectedFilter(q: seq<char>, s: seq<char>): (r: seq<Color>)
    ensures |r| == |q|
  {
    seq(|q|, i requires 0 <= i < |q| => ExpectedColor(q, s, i))
  }
}

=== FILE: filters.dfy ===
/** Colours and filters: the feedback the puzzle gives for one guess. */
module Filters {
  import opened Words

  datatype Color = Gray | Yellow | Green

  /** One colour per letter position. */
  type Filter = f: seq<Color> | |f| == WordLength
    witness [Gray, Gray, Gray, Gray, Gray]

  /** `Filter::new`: the all-gray filter every computation starts from. */
  function NewFilter(): (f: Filter)
    ensures forall i | 0 <= i < |f| :: f[i] == Gray
  {
    [Gray, Gray, Gray, Gray, Gray]
  }

  /** `Filter::is_green`: the filter that ends the game. */
  predicate IsGreen(f: Filter)
  {
    f == [Green, Green, Green, Green, Green]
  }

  lemma IsGreenIff(f: Filter)
    ensures IsGreen(f) <==> forall i | 0 <= i < |f| :: f[i] == Green
  {
    if forall i | 0 <= i < |f| :: f[i] == Green {
      assert f == [Green, Green, Green, Green, Green];
    }
  }
}

=== FILE: input.dfy ===
/** The token check of the interactive feedback prompt: a line is accepted
    when it splits into exactly one token per letter and every token names
    a colour, ignoring case; otherwise the prompt asks again. Reading the
    line and splitting it at whitespace are outside the model: the tokens
    are the input here, and "ask again" is `None`. */
module FeedbackInput {
  import opened Wrappers
  import opened Words
  import opened Filters

  /** Lower-case for the ASCII letters; every other character is kept. */
  function LowerChar(c: char): (r: char)
    ensures 'A' <= c <= 'Z' ==> r as int == c as int + 32
    ensures !('A' <= c <= 'Z') ==> r == c
  {
    if 'A' <= c <= 'Z' then (c as int + 32) as char else c
  }

  function Lower(s: string): (r: string)
    ensures |r| == |s|
    ensures forall i | 0 <= i < |s| :: r[i] == LowerChar(s[i])
  {
    seq(|s|, i requires 0 <= i < |s| => LowerChar(s[i]))
  }

  /** Upper-case for the ASCII letters, the inverse direction of `Lower`. */
  function Upper(s: string): (r: string)
    ensures |r| == |s|
  {
    seq(|s|, i requires 0 <= i < |s| => if 'a' <= s[i] <= 'z' then (s[i] as int - 32) as char else s[i])
  }

  /** The word the prompt accepts for each colour. */
  function ColorName(c: Color): string
  {
    match c
    case Gray => "gray"
    case Yellow => "yellow"
    case Green => "green"
  }

  /** One token: its lower-case form must be a colour's name. */
  function ParseColor(token: string): (r: Option<Color>)
    ensures r.Some? ==> Lower(token) == ColorName(r.value)
    ensures r.None? ==> forall c: Color :: Lower(token) != ColorName(c)
  {
    var t := Lower(token);
    if t == "gray" then Some(Gray)
    else if t == "yellow" then Some(Yellow)
    else if t == "green" then Some(Green)
    else None
  }

  /** The tokens in order; the first one that is not a colour stops the
      scan. */
  function ParseColors(tokens: seq<string>): (r: Option<seq<Color>>)
    ensures r.Some? <==> forall i | 0 <= i < |tokens| :: ParseColor(tokens[i]).Some?
    ensures r.Some? ==>
      (|r.value| == |tokens| && forall i | 0 <= i < |tokens| :: ParseColor(tokens[i]) == Some(r.value[i]))
  {
    if |tokens| == 0 then Some([])
    else
      var c :- ParseColor(tokens[0]);
      var rest :- ParseColors(tokens[1..]);
      assert forall i | 1 <= i < |tokens| :: tokens[i] == tokens[1..][i - 1];
      Some([c] + rest)
  }

  /** A line's tokens become a filter when there is one token per letter
      and each names a colour; the filter holds those colours in order.
      Anything else makes the prompt ask again. */
  function ParseFilter(tokens: seq<string>): (r: Option<Filter>)
    ensures r.Some? <==>
      (|tokens| == WordLength && forall i | 0 <= i < |tokens| :: ParseColor(tokens[i]).Some?)
    ensures r.Some? ==> forall i | 0 <= i < WordLength :: ParseColor(tokens[i]) == Some(r.value[i])
  {
    if |tokens| != WordLength then None
    else
      var colors :- ParseColors(tokens);
      Some(colors)
  }

  /** The colour names of a filter, as a user would type them. */
  function ColorNames(f: Filter): (tokens: seq<string>)
    ensures |tokens| == WordLength
  {
    seq(WordLength, i requires 0 <= i < WordLength => ColorName(f[i]))
  }

  /** Typing a filter's colour names gives back that filter. */
  lemma ParseColorNames(f: Filter)
    ensures ParseFilter(ColorNames(f)) == Some(f)
  {
    var tokens := ColorNames(f);
    forall i | 0 <= i < WordLength
      ensures ParseColor(tokens[i]) == Some(f[i])
    {
      ColorNameParses(f[i]);
    }
    var r := ParseFilter(tokens);
    assert r.Some?;
    assert forall i | 0 <= i < WordLength :: r.value[i] == f[i];
    assert r.value == f;
  }

  /** Each colour's name, in lower or upper case, parses to that colour. */
  lemma ColorNameParses(c: Color)
    ensures ParseColor(ColorName(c)) == Some(c)
    ensures ParseColor(Upper(ColorName(c))) == Some(c)
  {
    var n := ColorName(c);
    assert Lower(n) == n;
    assert Lower(Upper(n)) == n;
  }

  /** Case does not matter: a line and its lower-cased form are accepted
      or refused alike, with the same filter. */
  lemma ParseIgnoresCase(tokens: seq<string>)
    ensures ParseFilter(tokens) == ParseFilter(seq(|tokens|, i requires 0 <= i < |tokens| => Lower(tokens[i])))
  {
    var lowered := seq(|tokens|, i requires 0 <= i < |tokens| => Lower(tokens[i]));
    forall i | 0 <= i < |tokens|
      ensures ParseColor(tokens[i]) == ParseColor(lowered[i])
    {
      LowerTwice(tokens[i]);
    }
    var a, b := ParseFilter(tokens), ParseFilter(lowered);
    if a.Some? {
      assert b.Some?;
      assert forall i | 0 <= i < WordLength :: a.value[i] == b.value[i];
      assert a.value == b.value;
    }
  }

  lemma LowerTwice(s: string)
    ensures Lower(Lower(s)) == Lower(s)
  {
  }
}

=== FILE: numbers.dfy ===
module Numbers {

  /** `std::cmp::min` on counts. */
  function Min(a: nat, b: nat): (r: nat)
    ensures r <= a && r <= b
    ensures r == a || r == b
  {
    if a <= b then a else b
  }
}

=== FILE: partition.dfy ===
/** Grouping the remaining secret candidates by the filter a query would
    produce against each of them. The grouping is stated for any key
    function; the program's partition is the grouping by
    `compute_filter(query, _)`. */
module Partitioning {
  import opened Words
  import opened Filters
  import opened Feedback

  /** `a` is `b` with some entries dropped and the rest kept in order. */
  predicate IsSubsequence<T(==)>(a: seq<T>, b: seq<T>)
    decreases |b|
  {
    if |a| == 0 then true
    else if |b| == 0 then false
    else if a[|a| - 1] == b[|b| - 1] then IsSubsequence(a[..|a| - 1], b[..|b| - 1])
    else IsSubsequence(a, b[..|b| - 1])
  }

  /** The entries of `xs` with key `k`, in input order. */
  function Select<K(==), V(==,!new)>(key: V -> K, xs: seq<V>, k: K): (r: seq<V>)
    ensures forall x :: x in r <==> x in xs && key(x) == k
    ensures |r| <= |xs|
    ensures IsSubsequence(r, xs)
  {
    if |xs| == 0 then []
    else
      var rest := Select(key, xs[..|xs| - 1], k);
      var last := xs[|xs| - 1];
      assert xs == xs[..|xs| - 1] + [last];
      if key(last) == k then
        assert (rest + [last])[..|rest|] == rest;
        rest + [last]
      else rest
  }

  lemma SelectSnoc<K, V(!new)>(key: V -> K, xs: seq<V>, k: K)
    requires |xs| > 0
    ensures Select(key, xs, k)
      == Select(key, xs[..|xs| - 1], k) + (if key(xs[|xs| - 1]) == k then [xs[|xs| - 1]] else [])
  {
  }

  lemma SelectEmpty<K, V(!new)>(key: V -> K, xs: seq<V>, k: K)
    requires forall x | x in xs :: key(x) != k
    ensures Select(key, xs, k) == []
  {
  }

  /** A selection keeps every copy of each entry with the key and none of
      the others: it holds each entry as many times as the entries do when
      its key is `k`, and not at all otherwise. */
  lemma {:induction false} SelectCount<K, V(!new)>(key: V -> K, xs: seq<V>, k: K)
    ensures forall x :: multiset(Select(key, xs, k))[x] == if key(x) == k then multiset(xs)[x] else 0
  {
    if |xs| > 0 {
      var init := xs[..|xs| - 1];
      var last := xs[|xs| - 1];
      SelectCount(key, init, k);
      SelectSnoc(key, xs, k);
      assert xs == init + [last];
      assert multiset(xs) == multiset(init) + multiset{last};
    }
  }

  /** No entry occurs twice. */
  predicate Distinct<T(==)>(xs: seq<T>)
  {
    forall i, j | 0 <= i < j < |xs| :: xs[i] != xs[j]
  }

  /** A selection from entries without repeats has no repeats. */
  lemma {:induction false} SelectDistinct<K, V(!new)>(key: V -> K, xs: seq<V>, k: K)
    requires Distinct(xs)
    ensures Distinct(Select(key, xs, k))
  {
    if |xs| > 0 {
      var init := xs[..|xs| - 1];
      var last := xs[|xs| - 1];
      assert Distinct(init);
      SelectDistinct(key, init, k);
      SelectSnoc(key, xs, k);
      if key(last) == k {
        var rest := Select(key, init, k);
        assert last !in init by {
          forall i | 0 <= i < |init| ensures init[i] != last {
            assert init[i] == xs[i];
          }
        }
        assert last !in rest;
        assert Distinct(rest + [last]);
      }
    }
  }

  /** A selection that leaves out some entry is shorter than the entries. */
  lemma {:induction false} SelectMissing<K, V(!new)>(key: V -> K, xs: seq<V>, k: K, i: nat)
    requires i < |xs| && key(xs[i]) != k
    ensures |Select(key, xs, k)| < |xs|
  {
    var init := xs[..|xs| - 1];
    SelectSnoc(key, xs, k);
    if i < |xs| - 1 {
      assert init[i] == xs[i];
      SelectMissing(key, init, k, i);
    }
  }

  /** Each entry, in order, is appended to the group of its key, the group
      being created on first use. */
  function GroupBy<K(==,!new), V(==,!new)>(key: V -> K, xs: seq<V>): (m: map<K, seq<V>>)
  {
    if |xs| == 0 then map[]
    else
      var m := GroupBy(key, xs[..|xs| - 1]);
      var x := xs[|xs| - 1];
      if key(x) in m then m[key(x) := m[key(x)] + [x]]
      else m[key(x) := [x]]
  }

  /** Every group is the selection of the entries with its key, so groups
      are non-empty, keep input order and hold exactly the entries with
      that key; every entry's key is present. */
  lemma {:induction false} GroupBySelects<K(!new), V(!new)>(key: V -> K, xs: seq<V>)
    ensures forall k | k in GroupBy(key, xs) :: GroupBy(key, xs)[k] == Select(key, xs, k)
    ensures forall k | k in GroupBy(key, xs) :: |GroupBy(key, xs)[k]| > 0
    ensures forall x | x in xs :: key(x) in GroupBy(key, xs)
  {
    if |xs| > 0 {
      var init := xs[..|xs| - 1];
      var x := xs[|xs| - 1];
      var m := GroupBy(key, init);
      var r := GroupBy(key, xs);
      GroupBySelects(key, init);
      assert xs == init + [x];
      forall k | k in r
        ensures r[k] == Select(key, xs, k) && |r[k]| > 0
      {
        SelectSnoc(key, xs, k);
        if k == key(x) && k !in m {
          SelectEmpty(key, init, k);
        }
      }
    }
  }

  /* ---------- coverage: group sizes add up to the entry count ---------- */

  ghost function Pick<K, V>(m: map<K, seq<V>>): K
    requires |m| > 0
  {
    var k :| k in m; k
  }

  /** The sum of the group sizes. */
  ghost function TotalSize<K, V>(m: map<K, seq<V>>): nat
    decreases |m|
  {
    if |m| == 0 then 0
    else |m[Pick(m)]| + TotalSize(m - {Pick(m)})
  }

  /** The sum does not depend on which group is taken first. */
  lemma {:induction false} TotalSizeRemove<K, V>(m: map<K, seq<V>>, k: K)
    requires k in m
    ensures TotalSize(m) == |m[k]| + TotalSize(m - {k})
    decreases |m|
  {
    var g := Pick(m);
    if g != k {
      TotalSizeRemove(m - {g}, k);
      TotalSizeRemove(m - {k}, g);
      assert m - {g} - {k} == m - {k} - {g};
    }
  }

  /** Coverage: no entry is lost, duplicated or invented. */
  lemma {:induction false} GroupByCoverage<K(!new), V(!new)>(key: V -> K, xs: seq<V>)
    ensures TotalSize(GroupBy(key, xs)) == |xs|
  {
    if |xs| > 0 {
      var init := xs[..|xs| - 1];
      var x := xs[|xs| - 1];
      var m := GroupBy(key, init);
      var m' := GroupBy(key, xs);
      GroupByCoverage(key, init);
      TotalSizeRemove(m', key(x));
      if key(x) in m {
        TotalSizeRemove(m, key(x));
        assert m' - {key(x)} == m - {key(x)};
      } else {
        assert m' - {key(x)} == m;
      }
    }
  }

  /* ---------- the program's partition ---------- */

  /** Filter -> the candidates that produce it, as the program's hash map. */
  type Buckets = map<Filter, seq<Word>>

  /** The filter `query` produces against each possible secret. */
  function FilterAgainst(query: Word): Word -> Filter
    requires |query.letters| == WordLength
  {
    secret => ComputeFilter(query, secret)
  }

  /** `compute_filters_to_secret_candidates_for_query`. */
  function Partition(query: Word, candidates: seq<Word>): Buckets
    requires |query.letters| == WordLength
  {
    GroupBy(FilterAgainst(query), candidates)
  }

  /** The bucket of `f`: the candidates, in order, against which `query`
      produces `f`. */
  function Bucket(query: Word, candidates: seq<Word>, f: Filter): seq<Word>
    requires |query.letters| == WordLength
  {
    Select(FilterAgainst(query), candidates, f)
  }

  /** Every candidate sits in exactly the bucket keyed by its own filter;
      buckets are non-empty and keep input order. */
  lemma PartitionBuckets(query: Word, candidates: seq<Word>)
    requires |query.letters| == WordLength
    ensures forall f | f in Partition(query, candidates) ::
      && Partition(query, candidates)[f] == Bucket(query, candidates, f)
      && |Partition(query, candidates)[f]| > 0
      && IsSubsequence(Partition(query, candidates)[f], candidates)
    ensures forall x, f | x in candidates && f in Partition(query, candidates) ::
      x in Partition(query, candidates)[f] <==> ComputeFilter(query, x) == f
    ensures forall x | x in candidates :: ComputeFilter(query, x) in Partition(query, candidates)
  {
    GroupBySelects(FilterAgainst(query), candidates);
  }

  /** Partition coverage: the bucket sizes add up to the number of
      candidates. */
  lemma PartitionCoverage(query: Word, candidates: seq<Word>)
    requires |query.letters| == WordLength
    ensures TotalSize(Partition(query, candidates)) == |candidates|
  {
    GroupByCoverage(FilterAgainst(query), candidates);
  }

  /** `filter_secret_candidates`: the bucket of a filter that occurs; the
      program unwraps the lookup, so a filter with no bucket is excluded. */
  function FilterCandidates(query: Word, f: Filter, candidates: seq<Word>): (r: seq<Word>)
    requires |query.letters| == WordLength
    requires f in Partition(query, candidates)
    ensures |r| > 0
    ensures forall x :: x in r <==> x in candidates && ComputeFilter(query, x) == f
    ensures IsSubsequence(r, candidates)
    ensures r == Bucket(query, candidates, f)
    ensures forall x :: multiset(r)[x] == if ComputeFilter(query, x) == f then multiset(candidates)[x] else 0
  {
    var key := FilterAgainst(query);
    GroupBySelects(key, candidates);
    SelectCount(key, candidates, f);
    assert forall x :: key(x) == ComputeFilter(query, x);
    Partition(query, candidates)[f]
  }
}

=== FILE: selector.dfy ===
/** Scoring a query by its worst case (the largest bucket it leaves) and
    choosing the first query of least cost. */
module Selector {
  import opened Wrappers
  import opened Words
  import opened Feedback
  import opened Partitioning

  /** Every query of the bank has the puzzle's word length. This is an
      assumption about the query list file: the program reads its lines
      without checking their length. */
  predicate WellFormedBank(bank: seq<Word>)
  {
    forall k | 0 <= k < |bank| :: |bank[k].letters| == WordLength
  }

  /** A non-empty finite set of sizes has a largest element. */
  lemma {:induction false} MaxExists(sizes: set<nat>)
    requires sizes != {}
    ensures exists r :: r in sizes && forall z | z in sizes :: z <= r
    decreases |sizes|
  {
    var x :| x in sizes;
    var rest := sizes - {x};
    if rest == {} {
      assert forall z | z in sizes :: z <= x by {
        forall z | z in sizes ensures z <= x {
          assert z !in rest;
        }
      }
    } else {
      MaxExists(rest);
      var r :| r in rest && forall z | z in rest :: z <= r;
      var top := if x <= r then r else x;
      forall z | z in sizes ensures z <= top {
        if z != x {
          assert z in rest;
        }
      }
      assert top in sizes;
    }
  }

  /** The size of the largest bucket, 0 when there is none. */
  function MaxBucketSize(m: Buckets): (r: nat)
    ensures forall f | f in m :: |m[f]| <= r
    ensures |m| > 0 ==> exists f | f in m :: |m[f]| == r
    ensures |m| == 0 ==> r == 0
  {
    if |m| == 0 then 0
    else
      var sizes := set f | f in m :: |m[f]|;
      assert sizes != {} by {
        var f :| f in m;
        assert |m[f]| in sizes;
      }
      assert forall f | f in m :: |m[f]| in sizes;
      MaxExists(sizes);
      var r :| r in sizes && forall z | z in sizes :: z <= r;
      r
  }

  /** `compute_hashmap_cost`: one pass over the buckets, in whatever order
      the map yields them, keeping the largest size seen. */
  method HashmapCost(m: Buckets) returns (cost: nat)
    ensures cost == MaxBucketSize(m)
  {
    cost := 0;
    var rest := m.Keys;
    while rest != {}
      invariant rest <= m.Keys
      invariant forall f | f in m.Keys - rest :: |m[f]| <= cost
      invariant cost == 0 || exists f | f in m.Keys - rest :: |m[f]| == cost
      decreases |rest|
    {
      var f :| f in rest;
      if |m[f]| > cost {
        cost := |m[f]|;
      }
      rest := rest - {f};
    }
  }

  /** `compute_query_cost`: the query's partition of the candidates and the
      size of its largest bucket. */
  function ComputeQueryCost(query: Word, candidates: seq<Word>): (nat, Buckets)
    requires |query.letters| == WordLength
  {
    var buckets := Partition(query, candidates);
    (MaxBucketSize(buckets), buckets)
  }

  /** The worst-case number of candidates left after playing `query`. */
  function Cost(query: Word, candidates: seq<Word>): nat
    requires |query.letters| == WordLength
  {
    ComputeQueryCost(query, candidates).0
  }

  /** The sum of the bucket sizes is at most the number of buckets times
      the largest size. */
  lemma {:induction false} TotalSizeAtMost(m: Buckets, bound: nat)
    requires forall f | f in m :: |m[f]| <= bound
    ensures TotalSize(m) <= |m| * bound
    decreases |m|
  {
    if |m| > 0 {
      var f := Pick(m);
      var rest := m - {f};
      assert rest.Keys == m.Keys - {f};
      TotalSizeAtMost(rest, bound);
      MulStep(|rest|, bound);
    }
  }

  lemma MulStep(n: nat, b: nat)
    ensures (n + 1) * b == n * b + b
  {
  }

  /** Minimax cost bounds: a query leaves at most all the candidates, at
      least one when there are any, and at least the candidates shared out
      evenly over its buckets. */
  lemma CostBounds(query: Word, candidates: seq<Word>)
    requires |query.letters| == WordLength
    ensures Cost(query, candidates) <= |candidates|
    ensures |candidates| > 0 ==> Cost(query, candidates) >= 1
    ensures |candidates| <= |Partition(query, candidates)| * Cost(query, candidates)
  {
    var m := Partition(query, candidates);
    PartitionBuckets(query, candidates);
    PartitionCoverage(query, candidates);
    TotalSizeAtMost(m, MaxBucketSize(m));
    if |candidates| > 0 {
      assert ComputeFilter(query, candidates[0]) in m;
    }
  }

  /** The cost of each bank query, in bank order. */
  function Costs(bank: seq<Word>, candidates: seq<Word>): (costs: seq<nat>)
    requires WellFormedBank(bank)
    ensures |costs| == |bank|
    ensures forall j | 0 <= j < |bank| :: costs[j] == Cost(bank[j], candidates)
  {
    seq(|bank|, j requires 0 <= j < |bank| => Cost(bank[j], candidates))
  }

  /** Entry `k` is the least cost, and every earlier entry is strictly
      larger. */
  predicate IsFirstMinimum(costs: seq<nat>, k: nat)
  {
    && k < |costs|
    && (forall j | 0 <= j < |costs| :: costs[k] <= costs[j])
    && (forall j | 0 <= j < k :: costs[k] < costs[j])
  }

  /** What the loop of `compute_best_query` knows after the first `i`
      queries: nothing chosen yet, or `best` is the first least-cost query
      so far and `minCost` its cost. */
  predicate SoFar(costs: seq<nat>, i: nat, best: nat, minCost: Option<nat>)
  {
    && i <= |costs|
    && best < |costs|
    && (i == 0 ==> minCost == None && best == 0)
    && (i > 0 ==>
          && best < i
          && minCost == Some(costs[best])
          && (forall j | 0 <= j < i :: costs[best] <= costs[j])
          && (forall j | 0 <= j < best :: costs[best] < costs[j]))
  }

  /** The loop of `compute_best_query` from query `i` on, reading query
      `i`'s cost. The initial `u32::MAX` minimum is `None`: it is above
      every cost, so the first query is always taken. A later query
      replaces the best only when it is strictly cheaper, which keeps the
      first of equal-cost queries. */
  function BestFrom(costs: seq<nat>, i: nat, best: nat, minCost: Option<nat>): (r: nat)
    requires SoFar(costs, i, best, minCost)
    requires i == |costs| ==> i > 0
    ensures IsFirstMinimum(costs, r)
    decreases |costs| - i
  {
    if i == |costs| then best
    else
      var cost := costs[i];
      if minCost.None? || cost < minCost.value then BestFrom(costs, i + 1, i, Some(cost))
      else BestFrom(costs, i + 1, best, minCost)
  }

  /** The position in the bank of the query `compute_best_query` returns:
      the first query of least cost. */
  function BestIndex(bank: seq<Word>, candidates: seq<Word>): (k: nat)
    requires |bank| > 0 && WellFormedBank(bank)
    ensures IsFirstMinimum(Costs(bank, candidates), k)
  {
    BestFrom(Costs(bank, candidates), 0, 0, None)
  }

  /** The loop of `compute_best_query` over the bank itself from query
      `i` on, carrying the query chosen so far and its cost (`None` for
      the initial `u32::MAX`); `costs[i]` is query `i`'s cost, which the
      loop computes as it reaches it. */
  function ScanBank(bank: seq<Word>, costs: seq<nat>, i: nat, best: Word, minCost: Option<nat>): (r: Word)
    requires |costs| == |bank|
    requires i <= |bank|
    requires best in bank
    ensures r in bank
    decreases |bank| - i
  {
    if i == |bank| then best
    else
      var cost := costs[i];
      if minCost.None? || cost < minCost.value then ScanBank(bank, costs, i + 1, bank[i], Some(cost))
      else ScanBank(bank, costs, i + 1, best, minCost)
  }

  /** `compute_best_query`: the program starts from the bank's first entry,
      so the bank must not be empty. */
  function BestQuery(bank: seq<Word>, candidates: seq<Word>): (r: Word)
    requires |bank| > 0 && WellFormedBank(bank)
    ensures r in bank && |r.letters| == WordLength
  {
    ScanBank(bank, Costs(bank, candidates), 0, bank[0], None)
  }

  /** The scan over words returns the word at the index the scan over costs
      picks. */
  lemma {:induction false} ScanBankFollowsCosts(bank: seq<Word>, costs: seq<nat>, i: nat, best: nat, minCost: Option<nat>)
    requires |costs| == |bank|
    requires SoFar(costs, i, best, minCost)
    requires i == |bank| ==> i > 0
    ensures ScanBank(bank, costs, i, bank[best], minCost) == bank[BestFrom(costs, i, best, minCost)]
    decreases |bank| - i
  {
    if i < |bank| {
      if minCost.None? || costs[i] < minCost.value {
        ScanBankFollowsCosts(bank, costs, i + 1, i, Some(costs[i]));
      } else {
        ScanBankFollowsCosts(bank, costs, i + 1, best, minCost);
      }
    }
  }

  /** The best query is the bank word at the first index of least cost. */
  lemma BestQueryAtBestIndex(bank: seq<Word>, candidates: seq<Word>)
    requires |bank| > 0 && WellFormedBank(bank)
    ensures BestQuery(bank, candidates) == bank[BestIndex(bank, candidates)]
  {
    ScanBankFollowsCosts(bank, Costs(bank, candidates), 0, 0, None);
  }

  /** The best query is a bank query of least cost, the first one on
      ties. */
  lemma BestQueryIsFirstMinimum(bank: seq<Word>, candidates: seq<Word>)
    requires |bank| > 0 && WellFormedBank(bank)
    ensures var r := BestQuery(bank, candidates);
      forall j | 0 <= j < |bank| :: Cost(r, candidates) <= Cost(bank[j], candidates)
    ensures var r := BestQuery(bank, candidates);
      exists k | 0 <= k < |bank| :: r == bank[k] && forall j | 0 <= j < k :: Cost(r, candidates) < Cost(bank[j], candidates)
  {
    BestQueryAtBestIndex(bank, candidates);
    var k := BestIndex(bank, candidates);
  }
}

=== FILE: simulation.dfy ===
/** Properties of the simulation mode of the solving loop, where the
    feedback of each round is the filter of the round's query against a
    known secret. */
module Simulation {
  import opened Words
  import opened Filters
  import opened Feedback
  import opened FeedbackProperties
  import opened Partitioning
  import opened Solver

  /** All green against the secret means the query is the secret. */
  lemma GreenMeansSecret(query: Word, secret: Word)
    requires |query.letters| == WordLength && |secret.letters| == WordLength
    requires IsGreen(ComputeFilter(query, secret))
    ensures query == secret
  {
    GreenIffSameLetter(query, secret);
    AllGreenSameLetters(ComputeFilter(query, secret), query.letters, secret.letters);
    SameLettersSameWord(query, secret);
  }

  /** A filter that is all green and green exactly where the two words
      agree: the words are equal. */
  lemma AllGreenSameLetters(f: Filter, q: seq<char>, s: seq<char>)
    requires |q| == WordLength && |s| == WordLength
    requires IsGreen(f)
    requires forall i | 0 <= i < WordLength :: (f[i] == Green <==> i < |s| && q[i] == s[i])
    ensures q == s
  {
    IsGreenIff(f);
    assert forall i | 0 <= i < WordLength :: q[i] == s[i];
  }

  /** Feedback is all green exactly when the query is the secret. */
  lemma GreenOnlyForSecret(query: Word, secret: Word)
    requires |query.letters| == WordLength && |secret.letters| == WordLength
    ensures IsGreen(ComputeFilter(query, secret)) <==> query == secret
  {
    if IsGreen(ComputeFilter(query, secret)) {
      GreenMeansSecret(query, secret);
    } else if query == secret {
      SelfFeedbackIsGreen(query);
    }
  }

  /** The feedback step with the secret's own filter keeps a secret that
      is among the candidates: it finds the secret itself, or narrows to a
      bucket that still holds it; it never ends without a word. */
  lemma NarrowKeepsSecret(query: Word, candidates: seq<Word>, guesses: nat, secret: Word)
    requires |query.letters| == WordLength && |secret.letters| == WordLength
    requires secret in candidates
    ensures var o := Narrow(query, candidates, guesses, ComputeFilter(query, secret));
      && !o.NoWord?
      && (o.Found? ==> o.word == secret)
      && (o.Continue? ==> secret in o.next.candidates)
  {
    var feedback := ComputeFilter(query, secret);
    NarrowOutcome(query, candidates, guesses, feedback);
    PartitionBuckets(query, candidates);
    GreenOnlyForSecret(query, secret);
    assert feedback in Partition(query, candidates);
    if !IsGreen(feedback) {
      assert secret in Partition(query, candidates)[feedback];
    }
  }

  /** A secret among the candidates survives every simulated round, and
      the round adds at most one guess. */
  lemma SimulatedRoundKeepsSecret(bank: seq<Word>, s: Session, secret: Word)
    requires Runnable(bank, s)
    requires |secret.letters| == WordLength
    requires secret in s.candidates
    ensures var o := Round(bank, s, SimulatedFeedback(bank, s, secret));
      && !o.NoWord?
      && (o.Found? ==> o.word == secret && s.guesses <= o.guesses <= s.guesses + 1)
      && (o.Continue? ==> secret in o.next.candidates && o.next.guesses == s.guesses + 1)
      && (o.Continue? && |bank| > 0 ==> Runnable(bank, o.next))
  {
    var query := NextQuery(bank, s);
    var feedback := ComputeFilter(query, secret);
    NarrowKeepsSecret(query, s.candidates, s.guesses, secret);
    NarrowOutcome(query, s.candidates, s.guesses, feedback);
    if |bank| > 0 {
      RoundStaysRunnable(bank, s, feedback);
    }
  }

  /** Outcome `o` of rounds begun at count `g`, at most `n` of them: not
      a failure, a found word is the secret, and a game still going can
      run its next round and keeps the secret among its candidates. */
  predicate Kept(bank: seq<Word>, o: Outcome, secret: Word, g: nat, n: nat)
  {
    && !o.NoWord?
    && (o.Found? ==> o.word == secret && g <= o.guesses <= g + n)
    && (o.Continue? ==> Runnable(bank, o.next) && secret in o.next.candidates && o.next.guesses == g + n)
  }

  /** The loop keeps what each step keeps. */
  lemma {:induction false} RunKeeps(bank: seq<Word>, step: Session -> Outcome, o: Outcome, fuel: nat, secret: Word, g: nat)
    requires forall s | Runnable(bank, s) && secret in s.candidates :: Kept(bank, step(s), secret, s.guesses, 1)
    requires Kept(bank, o, secret, g, 1)
    ensures Kept(bank, Run(step, o, fuel), secret, g, fuel + 1)
    decreases fuel
  {
    if o.Continue? && fuel > 0 {
      RunKeeps(bank, step, step(o.next), fuel - 1, secret, g + 1);
    }
  }

  /** Every simulated round keeps a secret that is among its candidates. */
  lemma SimulatedStepKeeps(bank: seq<Word>, secret: Word)
    requires |bank| > 0
    requires |secret.letters| == WordLength
    ensures forall t | Runnable(bank, t) && secret in t.candidates ::
      Kept(bank, SimulatedStep(bank, secret)(t), secret, t.guesses, 1)
  {
    forall t | Runnable(bank, t) && secret in t.candidates
      ensures Kept(bank, SimulatedStep(bank, secret)(t), secret, t.guesses, 1)
    {
      assert SimulatedStep(bank, secret)(t) == Round(bank, t, SimulatedFeedback(bank, t, secret));
      SimulatedRoundKeepsSecret(bank, t, secret);
    }
  }

  /** Simulated play against a secret among the candidates only ever
      reports that secret, never "Couldn't find a word!"; the count grows
      by one per round played. */
  lemma SimulationFindsOnlySecret(bank: seq<Word>, s: Session, secret: Word, fuel: nat)
    requires Runnable(bank, s)
    requires |bank| > 0
    requires |secret.letters| == WordLength
    requires secret in s.candidates
    ensures !Simulate(bank, s, secret, fuel).NoWord?
    ensures var o := Simulate(bank, s, secret, fuel);
      o.Found? ==> o.word == secret && s.guesses <= o.guesses <= s.guesses + fuel + 1
    ensures var o := Simulate(bank, s, secret, fuel);
      o.Continue? ==> secret in o.next.candidates && o.next.guesses == s.guesses + fuel + 1
  {
    var step := SimulatedStep(bank, secret);
    SimulatedStepKeeps(bank, secret);
    RunKeeps(bank, step, step(s), fuel, secret, s.guesses);
  }
}

=== FILE: solver.dfy ===
/** The solving loop of the program's entry point as a step function: the
    opening-guess check, then one round per call: choose the query, take
    the feedback, stop on all green, otherwise narrow the candidates to the
    feedback's bucket. Reading feedback from the terminal and printing are
    outside the model; feedback is a parameter, or in simulation mode the
    filter of the query against a known secret. */
module Solver {
  import opened Words
  import opened Filters
  import opened Feedback
  import opened Partitioning
  import opened Selector

  /** The loop's variables between rounds: the remaining candidates, the
      guess count, and the last query played. */
  datatype Session = Session(candidates: seq<Word>, guesses: nat, query: Word)

  /** How a round ends: the program prints "FOUND" with the word and count,
      prints "Couldn't find a word!", or loops again. */
  datatype Outcome =
    | Found(word: Word, guesses: nat)
    | NoWord
    | Continue(next: Session)

  /** How the opening guess is handled: an empty guess asks for the best
      first query (printed, then the program exits), a guess of the word
      length starts play, any other length is rejected. */
  datatype Opening =
    | BestOpening(word: Word)
    | BadGuessLength
    | Play(session: Session)

  /** A session the loop can run: the query has the word length, the count
      started at 1, and later rounds have a bank to choose queries from. */
  predicate Runnable(bank: seq<Word>, s: Session)
  {
    && WellFormedBank(bank)
    && |s.query.letters| == WordLength
    && s.guesses >= 1
    && (s.guesses > 1 ==> |bank| > 0)
  }

  /** The opening: the guess count starts at 1 with all solutions as
      candidates and the given guess as the first query. */
  function Open(bank: seq<Word>, solutions: seq<Word>, firstGuess: seq<char>): (r: Opening)
    requires WellFormedBank(bank)
    requires |firstGuess| == 0 ==> |bank| > 0
    ensures r.BestOpening? <==> |firstGuess| == 0
    ensures r.BestOpening? ==>
      (r.word in bank && forall j | 0 <= j < |bank| :: Cost(r.word, solutions) <= Cost(bank[j], solutions))
    ensures r.BestOpening? ==>
      exists k | 0 <= k < |bank| :: r.word == bank[k] && IsFirstMinimum(Costs(bank, solutions), k)
    ensures r.Play? <==> |firstGuess| == WordLength
    ensures r.Play? ==>
      (r.session.candidates == solutions && r.session.guesses == 1 &&
       r.session.query.letters == firstGuess && Runnable(bank, r.session))
    ensures r.BadGuessLength? <==> |firstGuess| != 0 && |firstGuess| != WordLength
  {
    if |firstGuess| == 0 then
      BestQueryIsFirstMinimum(bank, solutions);
      BestQueryAtBestIndex(bank, solutions);
      BestOpening(BestQuery(bank, solutions))
    else if |firstGuess| == WordLength then Play(Session(solutions, 1, NewWord(firstGuess)))
    else BadGuessLength
  }

  /** The query of a round: the opening guess in round 1, afterwards the
      best query for the remaining candidates. */
  function NextQuery(bank: seq<Word>, s: Session): (q: Word)
    requires Runnable(bank, s)
    ensures |q.letters| == WordLength
    ensures s.guesses == 1 ==> q == s.query
    ensures s.guesses > 1 ==> q in bank
    ensures s.guesses > 1 ==>
      exists k | 0 <= k < |bank| :: q == bank[k] && IsFirstMinimum(Costs(bank, s.candidates), k)
  {
    if s.guesses > 1 then
      BestQueryAtBestIndex(bank, s.candidates);
      BestQuery(bank, s.candidates)
    else s.query
  }

  /** The feedback step of a round once `query` is chosen: stop on all
      green, otherwise look up the feedback's bucket among the query's
      partition of the candidates (the map `compute_query_cost` returns). */
  function Narrow(query: Word, candidates: seq<Word>, guesses: nat, feedback: Filter): Outcome
    requires |query.letters| == WordLength
  {
    var buckets := Partition(query, candidates);
    if IsGreen(feedback) then Found(query, guesses)
    else if feedback !in buckets then NoWord
    else
      var remaining := buckets[feedback];
      if |remaining| == 0 then NoWord
      else if |remaining| == 1 then Found(remaining[0], guesses + 1)
      else Continue(Session(remaining, guesses + 1, query))
  }

  /** One pass of the loop with the received `feedback`. */
  function Round(bank: seq<Word>, s: Session, feedback: Filter): Outcome
    requires Runnable(bank, s)
  {
    Narrow(NextQuery(bank, s), s.candidates, s.guesses, feedback)
  }

  /** What the feedback step does, case by case:
      - all green: found, the query played, at the current count;
      - no bucket for the feedback: no word, and this is the only way to
        get no word, since buckets are never empty;
      - a bucket of one: found, that candidate, one guess later;
      - otherwise the candidates become the feedback's bucket, which keeps
        their order, never grows and holds at least two, and the count
        goes up by one. */
  lemma NarrowOutcome(query: Word, candidates: seq<Word>, guesses: nat, feedback: Filter)
    requires |query.letters| == WordLength
    ensures var o := Narrow(query, candidates, guesses, feedback);
      IsGreen(feedback) ==> o == Found(query, guesses)
    ensures var o := Narrow(query, candidates, guesses, feedback);
      o.NoWord? <==> !IsGreen(feedback) && feedback !in Partition(query, candidates)
    ensures var o := Narrow(query, candidates, guesses, feedback);
      !IsGreen(feedback) && feedback in Partition(query, candidates) ==>
        (o.Found? || o.Continue?) &&
        (o.Found? ==> Partition(query, candidates)[feedback] == [o.word] && o.guesses == guesses + 1)
    ensures var o := Narrow(query, candidates, guesses, feedback);
      o.Continue? ==>
        && !IsGreen(feedback)
        && o.next.candidates == Bucket(query, candidates, feedback)
        && IsSubsequence(o.next.candidates, candidates)
        && 2 <= |o.next.candidates| <= |candidates|
        && o.next.guesses == guesses + 1
        && o.next.query == query
  {
    PartitionBuckets(query, candidates);
    var buckets := Partition(query, candidates);
    if !IsGreen(feedback) && feedback in buckets {
      assert buckets[feedback] == Bucket(query, candidates, feedback);
      if |buckets[feedback]| == 1 {
        assert buckets[feedback] == [buckets[feedback][0]];
      }
    }
  }

  /** A session the loop continues with can run the next round, given a
      bank to choose its query from. */
  lemma RoundStaysRunnable(bank: seq<Word>, s: Session, feedback: Filter)
    requires Runnable(bank, s)
    requires |bank| > 0
    ensures Round(bank, s, feedback).Continue? ==> Runnable(bank, Round(bank, s, feedback).next)
  {
    var query := NextQuery(bank, s);
    NarrowOutcome(query, s.candidates, s.guesses, feedback);
  }

  /** Simulation mode: the feedback is the filter of the round's query
      against the known secret. */
  function SimulatedFeedback(bank: seq<Word>, s: Session, secret: Word): Filter
    requires Runnable(bank, s)
  {
    ComputeFilter(NextQuery(bank, s), secret)
  }

  /** One round of simulation mode as a step from session to outcome. A
      session that is not runnable gives `NoWord`; with a non-empty bank
      every session the loop reaches is runnable (`RoundStaysRunnable`),
      while a second round with an empty bank is where the program
      panics. */
  function SimulatedStep(bank: seq<Word>, secret: Word): Session -> Outcome
  {
    s => if Runnable(bank, s) then Round(bank, s, SimulatedFeedback(bank, s, secret)) else NoWord
  }

  /** The loop: after outcome `o`, run `step` again while the game
      continues, for at most `fuel` more rounds. */
  function Run(step: Session -> Outcome, o: Outcome, fuel: nat): Outcome
    decreases fuel
  {
    if o.Continue? && fuel > 0 then Run(step, step(o.next), fuel - 1) else o
  }

  /** Simulated play: the first round and at most `fuel` more; an
      unfinished game returns the session it reached. */
  function Simulate(bank: seq<Word>, s: Session, secret: Word, fuel: nat): Outcome
    requires Runnable(bank, s)
  {
    var step := SimulatedStep(bank, secret);
    Run(step, step(s), fuel)
  }
}

=== FILE: sorted_positions.dfy ===
/** Sets of positions listed in ascending order: the model of collecting a
    position set into a vector and sorting it. */
module SortedPositions {

  /** The elements of `S` below `n`, in ascending order. */
  function Ascending(S: set<nat>, n: nat): (r: seq<nat>)
    ensures forall k | 0 <= k < |r| :: r[k] in S && r[k] < n
    ensures forall x | x in S && x < n :: x in r
    ensures forall a, b | 0 <= a < b < |r| :: r[a] < r[b]
  {
    if n == 0 then []
    else Ascending(S, n - 1) + (if n - 1 in S then [n - 1] else [])
  }

  /** The common part of two sets is no larger than either. */
  lemma IntersectionSize(A: set<nat>, B: set<nat>)
    ensures |A * B| <= |A| && |A * B| <= |B|
    ensures |A - B| == |A| - |A * B|
  {
    assert A == (A - B) + (A * B);
    assert B == (B - A) + (A * B);
  }

  /** The distinct elements of a sequence. */
  function Elements(r: seq<nat>): set<nat>
  {
    set x | x in r
  }

  /** A sequence without repetitions has as many elements as entries. */
  lemma {:induction false} DistinctElementsCount(r: seq<nat>)
    requires forall a, b | 0 <= a < b < |r| :: r[a] != r[b]
    ensures |Elements(r)| == |r|
  {
    if |r| > 0 {
      var init := r[..|r| - 1];
      DistinctElementsCount(init);
      assert Elements(r) == Elements(init) + {r[|r| - 1]};
      assert forall a | 0 <= a < |init| :: init[a] == r[a];
    }
  }

  /** Sorting loses nothing: the sorted listing of a set of positions below
      `n` is exactly as long as the set. */
  lemma AscendingLength(S: set<nat>, n: nat)
    requires forall x | x in S :: x < n
    ensures |Ascending(S, n)| == |S|
  {
    var r := Ascending(S, n);
    assert Elements(r) == S;
    DistinctElementsCount(r);
  }

  /** An element's index in the sorted listing is the number of smaller
      elements. */
  lemma {:induction false} AscendingRank(S: set<nat>, n: nat, x: nat)
    requires x in S && x < n
    ensures |Ascending(S, x)| < |Ascending(S, n)|
    ensures Ascending(S, n)[|Ascending(S, x)|] == x
  {
    if x < n - 1 {
      AscendingRank(S, n - 1, x);
    }
  }

  /** The first `k` entries of the sorted listing are the elements whose
      rank is below `k`. */
  lemma AscendingPrefix(S: set<nat>, n: nat, k: nat, x: nat)
    requires k <= |Ascending(S, n)|
    ensures x in Ascending(S, n)[..k] <==> x in S && x < n && |Ascending(S, x)| < k
  {
    var r := Ascending(S, n);
    if x in S && x < n {
      AscendingRank(S, n, x);
      var rank := |Ascending(S, x)|;
      assert forall m | 0 <= m < |r| && m != rank :: r[m] != x;
    }
  }
}

=== FILE: termination.dfy ===
/** When simulated play ends. If the candidates have no repeats and every
    one of them is also a query of the bank, every round after the first
    leaves strictly fewer candidates. So a game against a secret among
    the candidates is won within as many rounds as there are candidates. */
module Termination {
  import opened Words
  import opened Feedback
  import opened Partitioning
  import opened Selector
  import opened Solver
  import opened Simulation

  /** Every candidate is a query of the bank. */
  predicate WithinBank(bank: seq<Word>, candidates: seq<Word>)
  {
    forall x | x in candidates :: x in bank
  }

  /** Playing one of at least two distinct candidates leaves at most all
      but one of them: its own bucket is all green and holds no other
      candidate, and any other bucket leaves that candidate out. */
  lemma CandidateQueryCost(query: Word, candidates: seq<Word>)
    requires |query.letters| == WordLength
    requires forall x | x in candidates :: |x.letters| == WordLength
    requires Distinct(candidates)
    requires query in candidates
    requires |candidates| >= 2
    ensures Cost(query, candidates) < |candidates|
  {
    var key := FilterAgainst(query);
    var i :| 0 <= i < |candidates| && candidates[i] == query;
    var j := if i == 0 then 1 else 0;
    GreenOnlyForSecret(query, candidates[i]);
    GreenOnlyForSecret(query, candidates[j]);
    assert key(candidates[i]) != key(candidates[j]);
    var m := Partition(query, candidates);
    PartitionBuckets(query, candidates);
    forall f | f in m ensures |m[f]| < |candidates| {
      if key(candidates[i]) != f {
        SelectMissing(key, candidates, f, i);
      } else {
        SelectMissing(key, candidates, f, j);
      }
    }
  }

  /** When the candidates lie in the bank, the best query leaves at most
      all but one of at least two distinct candidates. */
  lemma BestQueryShrinks(bank: seq<Word>, candidates: seq<Word>)
    requires |bank| > 0 && WellFormedBank(bank)
    requires WithinBank(bank, candidates)
    requires Distinct(candidates)
    requires |candidates| >= 2
    ensures Cost(BestQuery(bank, candidates), candidates) < |candidates|
  {
    var c := candidates[0];
    assert c in bank;
    var k :| 0 <= k < |bank| && bank[k] == c;
    BestQueryIsFirstMinimum(bank, candidates);
    assert forall x | x in candidates :: |x.letters| == WordLength;
    CandidateQueryCost(c, candidates);
  }

  /** A game still going after the first round: it can run its next
      round, its candidates are at least two distinct words of the bank,
      and the secret is one of them. */
  predicate Going(bank: seq<Word>, t: Session, secret: Word)
  {
    && Runnable(bank, t)
    && t.guesses > 1
    && |t.candidates| >= 2
    && Distinct(t.candidates)
    && WithinBank(bank, t.candidates)
    && secret in t.candidates
  }

  /** Outcome `o` with at most `n` candidates left: the secret found, or a
      game still going on at most `n` candidates. */
  predicate Ends(bank: seq<Word>, o: Outcome, secret: Word, n: nat)
  {
    && !o.NoWord?
    && (o.Found? ==> o.word == secret)
    && (o.Continue? ==> Going(bank, o.next, secret) && |o.next.candidates| <= n)
  }

  /** One simulated round on distinct candidates within the bank finds the
      secret or goes on with at most as many candidates, and from the
      second round on with strictly fewer. */
  lemma SimulatedRoundEnds(bank: seq<Word>, t: Session, secret: Word)
    requires Runnable(bank, t)
    requires |bank| > 0
    requires |secret.letters| == WordLength
    requires secret in t.candidates
    requires Distinct(t.candidates)
    requires WithinBank(bank, t.candidates)
    ensures Ends(bank, Round(bank, t, SimulatedFeedback(bank, t, secret)), secret, |t.candidates|)
    ensures t.guesses > 1 ==>
      Ends(bank, Round(bank, t, SimulatedFeedback(bank, t, secret)), secret, |t.candidates| - 1)
  {
    var query := NextQuery(bank, t);
    var feedback := ComputeFilter(query, secret);
    var o := Narrow(query, t.candidates, t.guesses, feedback);
    assert Round(bank, t, SimulatedFeedback(bank, t, secret)) == o;
    SimulatedRoundKeepsSecret(bank, t, secret);
    NarrowOutcome(query, t.candidates, t.guesses, feedback);
    if o.Continue? {
      SelectDistinct(FilterAgainst(query), t.candidates, feedback);
      if t.guesses > 1 {
        var m := Partition(query, t.candidates);
        PartitionBuckets(query, t.candidates);
        assert o.next.candidates == m[feedback];
        BestQueryShrinks(bank, t.candidates);
      }
    }
  }

  /** Every round from a game still going ends it or shrinks it. */
  ghost predicate Shrinks(bank: seq<Word>, step: Session -> Outcome, secret: Word)
  {
    forall t | Going(bank, t, secret) :: Ends(bank, step(t), secret, |t.candidates| - 1)
  }

  /** The loop, given a step that shrinks every game still going, finds
      the secret within one round fewer than the candidates left. */
  lemma {:induction false} RunEnds(bank: seq<Word>, step: Session -> Outcome, o: Outcome, n: nat, fuel: nat, secret: Word)
    requires Shrinks(bank, step, secret)
    requires Ends(bank, o, secret, n)
    requires n <= fuel + 1
    ensures Run(step, o, fuel).Found? && Run(step, o, fuel).word == secret
    decreases fuel
  {
    if o.Continue? {
      RunEnds(bank, step, step(o.next), |o.next.candidates| - 1, fuel - 1, secret);
    }
  }

  /** Every simulated round shrinks a game still going. */
  lemma SimulatedStepShrinks(bank: seq<Word>, secret: Word)
    requires |bank| > 0
    requires |secret.letters| == WordLength
    ensures Shrinks(bank, SimulatedStep(bank, secret), secret)
  {
    forall t | Going(bank, t, secret)
      ensures Ends(bank, SimulatedStep(bank, secret)(t), secret, |t.candidates| - 1)
    {
      assert SimulatedStep(bank, secret)(t) == Round(bank, t, SimulatedFeedback(bank, t, secret));
      SimulatedRoundEnds(bank, t, secret);
    }
  }

  /** Simulated play against a secret among distinct candidates, all of
      them queries of the bank, prints "FOUND" with the secret within as
      many further rounds as there are candidates, less one. */
  lemma SimulationEnds(bank: seq<Word>, s: Session, secret: Word, fuel: nat)
    requires Runnable(bank, s)
    requires |bank| > 0
    requires |secret.letters| == WordLength
    requires secret in s.candidates
    requires Distinct(s.candidates)
    requires WithinBank(bank, s.candidates)
    requires |s.candidates| <= fuel + 1
    ensures Simulate(bank, s, secret, fuel).Found?
    ensures Simulate(bank, s, secret, fuel).word == secret
  {
    var step := SimulatedStep(bank, secret);
    assert step(s) == Round(bank, s, SimulatedFeedback(bank, s, secret));
    SimulatedRoundEnds(bank, s, secret);
    SimulatedStepShrinks(bank, secret);
    RunEnds(bank, step, step(s), |s.candidates|, fuel, secret);
  }
}

=== FILE: words.dfy ===
/** Words of the puzzle: the letters plus the per-letter position index
    that `Word::new` builds once so feedback can be computed from set
    intersections. */
module Words {

  /** The fixed word length of the puzzle. */
  const WordLength: nat := 5

  /** The positions below `n` at which `s` holds letter `c`. */
  function PositionsBelow(s: seq<char>, c: char, n: nat): set<nat>
    requires n <= |s|
  {
    set i: nat | i < n && s[i] == c
  }

  /** Every position at which `s` holds `c`. */
  function Positions(s: seq<char>, c: char): set<nat>
  {
    PositionsBelow(s, c, |s|)
  }

  /** The index `Word::new` builds from the first `n` letters: each letter
      is mapped to the set of positions where it occurs, the set being
      created on the letter's first occurrence. */
  function IndexPrefix(s: seq<char>, n: nat): (m: map<char, set<nat>>)
    requires n <= |s|
    ensures forall c :: c in m <==> c in s[..n]
    ensures forall c | c in m :: m[c] == PositionsBelow(s, c, n)
  {
    if n == 0 then map[]
    else
      var m := IndexPrefix(s, n - 1);
      var letter := s[n - 1];
      var indices := if letter in m then m[letter] else {};
      assert s[..n] == s[..n - 1] + [letter];
      assert PositionsBelow(s, letter, n) == PositionsBelow(s, letter, n - 1) + {n - 1};
      assert forall c | c != letter :: PositionsBelow(s, c, n) == PositionsBelow(s, c, n - 1);
      m[letter := indices + {n - 1}]
  }

  datatype WordRep = WordRep(letters: seq<char>, index: map<char, set<nat>>)

  /** A word whose index is the one built from its letters: every word of
      the program is made by `Word::new`, so this holds of all of them. */
  type Word = w: WordRep | w.index == IndexPrefix(w.letters, |w.letters|)
    witness WordRep([], map[])

  /** `Word::new`: keeps the letters and indexes every letter by the set of
      its positions. */
  function NewWord(s: seq<char>): (w: Word)
    ensures w.letters == s
    ensures forall c :: c in w.index <==> c in s
    ensures forall c | c in w.index :: w.index[c] == Positions(s, c)
  {
    assert s[..|s|] == s;
    WordRep(s, IndexPrefix(s, |s|))
  }

  /** What every word's index says, for use by the feedback engine. */
  lemma IndexOf(w: Word)
    ensures forall c :: c in w.index <==> c in w.letters
    ensures forall c | c in w.index :: w.index[c] == Positions(w.letters, c)
  {
    assert w.letters[..|w.letters|] == w.letters;
  }

  /** The index is determined by the letters, so two words with the same
      letters are the same word. */
  lemma SameLettersSameWord(v: Word, w: Word)
    requires v.letters == w.letters
    ensures v == w
  {
  }
}

=== FILE: wrappers.dfy ===
/** Failure-compatible option type used for lookups that may miss and for
    input that may fail to parse. */
module Wrappers {

  datatype Option<+T> = None | Some(value: T) {

    predicate IsFailure() {
      None?
    }

    function PropagateFailure<U>(): Option<U>
      requires None?
    {
      None
    }

    function Extract(): T
      requires Some?
    {
      value
    }
  }
}
